=== FILE: README.md ===
# LS-8 virtual CPU, modelled in Dafny

A model of the LS-8 emulator in `ls8/cpu.py`: a small byte-code CPU with 256 memory cells,
eight registers (register 7 is the stack pointer), a program counter, a comparison flag and
a running bit, driven by a fetch-decode-execute loop over a branch table of thirteen opcodes.

The model is functional. `Machine.State` is an immutable record. Every primitive, ALU
operation and opcode handler is a pure function that returns either the next state or the
exception the CPU would raise (`Wrappers.Result`). `Dispatch.Step` is one iteration of the
`run` loop, and `Dispatch.Run` iterates it for at most `fuel` steps through the generic
loop `Dispatch.Iterate`.

Modules follow the parts of the CPU:

- `Wrappers` (`wrappers.dfy`): `Option` and `Result`.
- `Machine` (`machine.dfy`): the state, Python list indexing, `ram_read`/`ram_write`, register
  access, `push`/`pop`, construction and `load`.
- `Alu` (`alu.dfy`): `alu` with add, mul and cmp.
- `Handlers` (`handlers.dfy`): the thirteen `handle_*` methods.
- `Dispatch` (`dispatch.dfy`): the branch table, one loop iteration, and the bounded loop.
- `Properties` (`properties.dfy`): lemmas that relate several operations.

## Behaviour worth knowing

The model reproduces the code's behaviour, including these points:

- ADD and MUL keep exact integer results. Nothing is reduced modulo 256, so 200 + 100 is
  300 (`Properties.AddDoesNotWrap`). Memory cells and registers hold unbounded integers.
- The stack pointer starts at 0, not at the top of a stack region. The first push stores
  at index -1, which Python resolves to cell 255 (`Properties.FirstPushWritesTopCell`).
- Every list index follows Python's rule: `-len <= i < len` is accepted, and a negative
  index counts from the end. Anything else raises an index error (`Machine.Error`). There is
  no separate stack-overflow or stack-underflow check. Python's `IndexError` carries no
  index. The address or register index that `RamIndexError` and `RegIndexError` record is
  added by the model, to say which access failed.
- An opcode byte missing from the branch table clears the running bit and stops the loop
  without any error.
- CALL never transfers control. It decrements the stack pointer and stores `pc + 2` at the
  new top. It then calls `ram_write(reg[7], pc + 2)`. Because of `ram_write`'s
  (value, address) parameter order, that stores the stack pointer at address `pc + 2`.
  The program counter is unchanged, so CALL never reaches the subroutine. As long as each
  new top cell `sp - 1` is a valid index other than the CALL's own cell, the same CALL runs
  again (`Properties.CallSpins`). When the top cell is the CALL's own cell, the CALL byte
  is replaced by `pc + 2`. At pc 15 with the stack pointer at 16, that value is 17, the RET
  opcode. The next step then returns to `pc + 2` with every register as it was before the
  CALL (`Properties.CallOverwritingItselfReturns`). No general CALL/RET round trip holds.
  The spin is not endless. The stack pointer drops by one on every iteration. So within
  `sp + 256` iterations the new top cell either is the CALL's own cell or lies below -256,
  and there CALL raises (`Properties.CallBelowMemoryRaises`). On a fresh CPU with CALL at
  address 0, iteration 256 replaces the CALL byte with 2. That byte is no opcode, so
  iteration 257 stops the loop (`Properties.CallOnFreshCpuHalts`).
- A taken JEQ sets `pc = reg[a] + 2`. A taken JNE sets `pc = reg[a] - 1`.
- The flag is `None` until the first CMP. JEQ and JNE evaluate `flag & et`, which raises on
  `None`. The model reports this as `FlagUnset`.

## Model

| member | source | states |
|---|---|---|
| Machine.Init | ls8/cpu.py:28-50 | a new CPU has all 256 cells and all 8 registers (the stack pointer included) at 0, pc 0, no flag, running, nothing printed |
| Machine.AndEt | ls8/cpu.py:19-21 | `flag & et` is non-zero exactly when the stored code is the one for "equal" |
| Machine.Slot | ls8/cpu.py:145-149 | an accepted Python index denotes cell i when i >= 0 and cell len + i when i < 0 |
| Machine.RamRead | ls8/cpu.py:145-146 | succeeds iff -256 <= address < 256 and yields that cell; otherwise an index error recording the address |
| Machine.RamWrite | ls8/cpu.py:148-149 | the first argument is the value and the second the address; exactly the addressed cell changes, nothing else in the CPU does; out of range is an index error |
| Machine.Push | ls8/cpu.py:52-54 | the stack pointer drops by one and the value lands in the cell it now names; other registers and cells are unchanged; fails only if sp - 1 is not a valid index |
| Machine.Pop | ls8/cpu.py:56-59 | returns the cell the stack pointer names and raises the stack pointer by one; memory and other registers are unchanged |
| Machine.RegRead | ls8/cpu.py:68 | reading `reg[i]` (also at lines 87, 113, 118, 128, 154, 157, 160) succeeds iff -8 <= i < 8 and yields register i, or register 8 + i for a negative i, so `reg[-1]` is the stack pointer; any other index is a register index error recording i |
| Machine.RegWrite | ls8/cpu.py:63 | assigning `reg[i] = v` (also at lines 92, 154, 157) succeeds iff -8 <= i < 8, puts v in the register i denotes and changes no other register and nothing else in the CPU; any other index is a register index error recording i |
| Machine.Load | ls8/cpu.py:136-143 | a program of at most 256 values fills cells 0..n-1 and leaves the rest and all other state alone; a longer one fails at address 256 |
| Machine.LoadFrom | ls8/cpu.py:139-143 | the copy loop from a given address: cells below it are untouched, cells from it up to the program's end take the program's values, the rest keep theirs; it fails at address 256 exactly when the program is longer than memory |
| Alu.Apply | ls8/cpu.py:151-169 | add and mul replace reg[a] with the exact sum or product of reg[a] and reg[b] and touch no other register; cmp sets the flag to exactly one of lt/gt/et according to <, >, == and changes no register; a bad reg[a] is reported before a bad reg[b] |
| Handlers.HandleLdi | ls8/cpu.py:61-64 | reg[a] becomes b, pc advances by 3, other registers, memory, flag and output are unchanged |
| Handlers.HandlePrn | ls8/cpu.py:66-69 | appends reg[a] to the output and advances pc by 2; nothing else changes |
| Handlers.HandleHlt | ls8/cpu.py:71-73 | clears the running bit and leaves pc and all other state as they were |
| Handlers.HandleMul | ls8/cpu.py:75-78 | reg[a] becomes old reg[a] * reg[b] without reduction, pc + 3, other registers unchanged |
| Handlers.HandleAdd | ls8/cpu.py:80-83 | reg[a] becomes old reg[a] + reg[b] without reduction, pc + 3, other registers unchanged |
| Handlers.HandlePush | ls8/cpu.py:85-88 | the old reg[a] is stored at the decremented stack pointer, pc + 2; one cell and the stack pointer change |
| Handlers.HandlePop | ls8/cpu.py:90-93 | reg[a] receives the top cell; the stack pointer rises by one unless a is the stack pointer itself, which then holds the popped value; pc + 2 |
| Handlers.HandleCall | ls8/cpu.py:95-99 | pc is unchanged; the stack pointer drops by one; cell pc + 2 receives the new stack pointer; the new top cell receives pc + 2 unless it is the same cell; nothing else changes |
| Handlers.HandleRet | ls8/cpu.py:101-104 | pc becomes the cell the stack pointer names and the stack pointer rises by one; nothing else changes |
| Handlers.HandleCmp | ls8/cpu.py:106-109 | the flag records whether reg[a] is <, > or == reg[b]; registers and memory are unchanged; pc + 3 |
| Handlers.HandleJmp | ls8/cpu.py:111-113 | pc becomes reg[a]; nothing else changes |
| Handlers.HandleJeq | ls8/cpu.py:115-121 | no flag raises; an "equal" flag sets pc to reg[a] + 2; any other flag advances pc by 2; nothing else changes |
| Handlers.HandleJne | ls8/cpu.py:123-133 | no flag raises; a flag other than "equal" sets pc to reg[a] - 1; "equal" advances pc by 2; nothing else changes |
| Dispatch.Decode | ls8/cpu.py:35-49 | a byte is found in the branch table iff it is the byte of some opcode, and then it is that opcode's byte |
| Dispatch.Execute | ls8/cpu.py:200-203 | only PRN adds output, and exactly one value; only HLT clears the running bit; no handler sets it |
| Dispatch.Step | ls8/cpu.py:194-206 | a fetch of pc, pc + 1 or pc + 2 outside memory raises for the first bad address; an unregistered opcode only clears the running bit; a registered one runs its handler on the next two bytes; output only grows, by at most one value |
| Dispatch.Iterate | ls8/cpu.py:194-206 | the `while self.running` loop over any step function: a halted state or zero fuel is returned as is; for a step that only appends at most one value and never restarts the CPU, the output only grows, by at most one value per iteration, and a state that ends up running was running at the start |
| Dispatch.Run | ls8/cpu.py:191-206 | a halted CPU is returned unchanged; output only grows, by at most one value per step; a CPU that ends up running was running at the start |
| Properties.ReadAfterWrite | ls8/cpu.py:145-149 | a read after a write returns the written value if both addresses name the same cell and the previous contents otherwise |
| Properties.PushPopRoundTrip | ls8/cpu.py:52-59 | pop right after push(v) returns v, restores the stack pointer and every register, and leaves memory differing only in the pushed cell |
| Properties.PushThenPopMovesRegister | ls8/cpu.py:85-93 | for b other than the stack pointer, PUSH a then POP b copies the old reg[a] into reg[b], restores the stack pointer and other registers, and advances pc by 4 |
| Properties.PushThenPopIntoStackPointer | ls8/cpu.py:85-93 | when b is the stack pointer (7 or -1), PUSH a then POP b leaves the old reg[a] in the stack pointer instead of restoring it, changes no other register, and advances pc by 4 |
| Properties.JeqJneComplementary | ls8/cpu.py:115-132 | with no flag both JEQ and JNE raise, whatever the operand; with a flag set and a valid register operand exactly one of them branches (to reg[a] + 2 and reg[a] - 1 respectively) and the other advances pc by 2 |
| Properties.CmpThenJeq | ls8/cpu.py:106-121 | CMP a,b then JEQ c lands on reg[c] + 2 exactly when reg[a] == reg[b], and otherwise on the original pc + 5 |
| Properties.CmpThenJne | ls8/cpu.py:106-132 | CMP a,b then JNE c lands on reg[c] - 1 exactly when reg[a] != reg[b], and otherwise on the original pc + 5 |
| Properties.PushThenRet | ls8/cpu.py:85-104 | PUSH a then RET sets pc to the old reg[a] and restores every register, the stack pointer included |
| Properties.FirstPushWritesTopCell | ls8/cpu.py:28-54 | on a fresh CPU the first push leaves the stack pointer at -1 and writes cell 255 |
| Properties.AddDoesNotWrap | ls8/cpu.py:151-154 | 200 + 100 leaves 300 in the register |
| Properties.DecodeByte | ls8/cpu.py:5-17 | each opcode's byte decodes back to that opcode and no two opcodes share a byte |
| Properties.StepDispatches | ls8/cpu.py:196-203 | when the byte at pc is an opcode's byte, one loop iteration is that opcode's handler applied to the next two bytes |
| Properties.CallStaysPut | ls8/cpu.py:95-99 | for any stack pointer whose next cell sp - 1 is a valid index other than the CALL's own cell, one CALL through the loop leaves pc, the running bit and the CALL byte in place and lowers the stack pointer by one |
| Properties.CallSpins | ls8/cpu.py:95-99 | if the cells sp - 1 down to sp - n are all valid indices other than the CALL's own cell, n iterations leave the CPU running on the same CALL with the stack pointer n lower |
| Properties.CallOverwritingItselfReturns | ls8/cpu.py:95-104 | a CALL at pc 15 with the stack pointer at 16 overwrites its own cell with 17, the RET opcode; two iterations later the CPU is at pc 17 with every register as before the CALL and cell 15 still holding RET |
| Properties.CallBelowMemoryRaises | ls8/cpu.py:97-98 | a CALL whose new top cell sp - 1 is not a valid index raises an index error at sp - 1 in that iteration |
| Properties.CallOverwritingItselfAtZeroHalts | ls8/cpu.py:95-99 | a CALL at address 0 with the stack pointer at -255 replaces its own byte with 2, which is no opcode, so two iterations end with the CPU stopped at pc 0 |
| Properties.CallOnFreshCpuHalts | ls8/cpu.py:28-99 | on a fresh CPU with CALL at address 0, 257 iterations succeed and leave the CPU stopped: the CALL spin ends |
| Properties.JmpToItselfLoops | ls8/cpu.py:111-113 | a JMP whose register operand holds the JMP's own address leaves the CPU unchanged and running for any number of iterations |
| Properties.IterateHaltedStable | ls8/cpu.py:194 | for any step function, once the loop has stopped, more fuel gives the same result |
| Properties.RunHaltedStable | ls8/cpu.py:194 | once the loop has stopped, more fuel gives the same result |
| Properties.IterateSplit | ls8/cpu.py:194-206 | for any step function, m + n iterations are m iterations followed by n more, and an error in the first m is the overall error |
| Properties.RunSplit | ls8/cpu.py:194-206 | m + n iterations are m iterations followed by n more, and an error in the first m is the overall error |
| Properties.PrnHltPrints | ls8/cpu.py:66-73 | `PRN R0; HLT` at address 9 prints register 0 and halts with pc on the HLT after two steps |
| Properties.MulPrnHltPrints | ls8/cpu.py:66-78 | `MUL R0,R1; PRN R0; HLT` at address 6 prints the product of registers 0 and 1 and halts with pc 11 after three steps |
| Properties.LdiLdiMulPrnHltPrints | ls8/cpu.py:61-78 | the program laid out cell by cell from address 0 prints exactly 72 and halts with pc 11 after five steps |
| Properties.MultiplyProgramPrints72 | ls8/cpu.py:61-78 | `LDI R0,8; LDI R1,9; MUL R0,R1; PRN R0; HLT` at address 0 prints exactly 72 and halts on the HLT after five steps |
| Properties.LoadedMultiplyProgramPrints72 | ls8/cpu.py:136-143 | loading that program into a freshly constructed CPU succeeds, and five steps print exactly [72] and halt |

## Left out

- Debug printing: every `print` in the handlers and in `run`, and the `trace` method, have no
  effect on CPU state. Only the value PRN prints is kept, as the `output` sequence.
- The instruction register `ir`: the constructor sets it to 0, and each loop iteration
  overwrites it. Its value is only read in the iteration that fetched it, so `Step` holds it
  in a local.
- Reading a program from a file or the command line, and the `sys` import: only `load`'s copy
  loop is modelled.
- The unbounded `while self.running` loop: `Run` takes a `fuel` bound. A result that is still
  running means the bound ran out. A program can loop without end: `JMP R0` at the address
  R0 holds never changes the state (`Properties.JmpToItselfLoops`).
- State after an exception: Python has already mutated part of the state when, for example,
  a push writes out of range or `load` runs past cell 255. An exception in a handler ends
  `run`, and one in `load` ends the loading; the model returns only the error and not that
  partial state. A failure from `Dispatch.Run` also drops the values PRN printed in earlier
  iterations. `Properties.RunSplit`, applied with the last fuel for which `Run` succeeds,
  recovers the state and output reached before the failing step.
- The ALU's "Unsupported ALU operation" exception: the operation is a closed datatype
  (`Alu.Op`) and every handler passes add, mul or cmp, so that branch cannot be reached.
- Python's dynamic typing: memory and registers only ever hold integers here, so type errors
  other than `None & et` cannot arise and are not modelled.

=== FILE: alu.dfy ===
/** The arithmetic-logic unit: addition, multiplication and comparison of two registers. */
module Alu {
  import opened Wrappers
  import opened Machine

  /** The operations the ALU is asked for. The set is closed, so the "unsupported operation"
      branch of the CPU cannot be reached. */
  datatype Op = Add | Mul | Cmp

  /** `alu(op, reg_a, reg_b)`. Sums and products are exact: no reduction to a byte.
      Register `reg_a` is read before `reg_b`, so a bad `reg_a` is the one reported. */
  function Apply(s: State, op: Op, a: int, b: int): (r: Result<State, Error>)
    ensures r.Success? <==> Indexable(REG_COUNT, a) && Indexable(REG_COUNT, b)
    ensures r.Failure? ==> r.error == RegIndexError(if Indexable(REG_COUNT, a) then b else a)
    ensures r.Success? && op != Cmp ==> r.value.(reg := s.reg) == s
    ensures r.Success? && op != Cmp ==> RegsAgreeExcept(s.reg, r.value.reg, Slot(REG_COUNT, a))
    ensures r.Success? && op == Add ==>
      r.value.reg[Slot(REG_COUNT, a)] == s.reg[Slot(REG_COUNT, a)] + s.reg[Slot(REG_COUNT, b)]
    ensures r.Success? && op == Mul ==>
      r.value.reg[Slot(REG_COUNT, a)] == s.reg[Slot(REG_COUNT, a)] * s.reg[Slot(REG_COUNT, b)]
    ensures r.Success? && op == Cmp ==> r.value.(flag := s.flag) == s && r.value.flag.Some?
    ensures r.Success? && op == Cmp ==>
      && (r.value.flag == Some(Lt) <==> s.reg[Slot(REG_COUNT, a)] < s.reg[Slot(REG_COUNT, b)])
      && (r.value.flag == Some(Gt) <==> s.reg[Slot(REG_COUNT, a)] > s.reg[Slot(REG_COUNT, b)])
      && (r.value.flag == Some(Et) <==> s.reg[Slot(REG_COUNT, a)] == s.reg[Slot(REG_COUNT, b)])
  {
    var x :- RegRead(s, a);
    var y :- RegRead(s, b);
    match op
    case Add => RegWrite(s, a, x + y)
    case Mul => RegWrite(s, a, x * y)
    case Cmp =>
      if x < y then Success(s.(flag := Some(Lt)))
      else if x > y then Success(s.(flag := Some(Gt)))
      else Success(s.(flag := Some(Et)))
  }
}

=== FILE: dispatch.dfy ===
/** Instruction decoding and the fetch-decode-execute loop. */
module Dispatch {
  import opened Wrappers
  import opened Machine
  import opened Handlers

  /** The opcode bytes of the branch table. */
  const LDI: int := 0x82   // 0b10000010
  const PRN: int := 0x47   // 0b01000111
  const HLT: int := 0x01   // 0b00000001
  const MUL: int := 0xA2   // 0b10100010
  const ADD: int := 0xA0   // 0b10100000
  const PUSH: int := 0x45  // 0b01000101
  const POP: int := 0x46   // 0b01000110
  const CALL: int := 0x50  // 0b01010000
  const RET: int := 0x11   // 0b00010001
  const CMP: int := 0xA7   // 0b10100111
  const JMP: int := 0x54   // 0b01010100
  const JEQ: int := 0x55   // 0b01010101
  const JNE: int := 0x56   // 0b01010110

  /** One variant per entry of the branch table. */
  datatype Opcode = Ldi | Prn | Hlt | Mul | Add | Push | Pop | Call | Ret | Cmp | Jmp | Jeq | Jne

  /** The byte under which each handler is registered. */
  function Byte(op: Opcode): int {
    match op
    case Ldi => LDI
    case Prn => PRN
    case Hlt => HLT
    case Mul => MUL
    case Add => ADD
    case Push => PUSH
    case Pop => POP
    case Call => CALL
    case Ret => RET
    case Cmp => CMP
    case Jmp => JMP
    case Jeq => JEQ
    case Jne => JNE
  }

  /** Branch-table lookup: the handler registered under `ir`, if any. */
  function Decode(ir: int): (r: Option<Opcode>)
    ensures r.Some? ==> Byte(r.value) == ir
    ensures r.None? ==> forall op: Opcode :: Byte(op) != ir
  {
    if ir == LDI then Some(Ldi)
    else if ir == PRN then Some(Prn)
    else if ir == HLT then Some(Hlt)
    else if ir == MUL then Some(Mul)
    else if ir == ADD then Some(Add)
    else if ir == PUSH then Some(Push)
    else if ir == POP then Some(Pop)
    else if ir == CALL then Some(Call)
    else if ir == RET then Some(Ret)
    else if ir == CMP then Some(Cmp)
    else if ir == JMP then Some(Jmp)
    else if ir == JEQ then Some(Jeq)
    else if ir == JNE then Some(Jne)
    else None
  }

  /** Invoke the handler for `op` with the two fetched operand bytes. Only PRN emits
      output, only HLT clears the running bit, and no handler sets it. */
  function Execute(op: Opcode, s: State, a: int, b: int): (r: Result<State, Error>)
    ensures r.Success? && op != Prn ==> r.value.output == s.output
    ensures r.Success? && op == Prn ==>
      Indexable(REG_COUNT, a) && r.value.output == s.output + [s.reg[Slot(REG_COUNT, a)]]
    ensures r.Success? && op != Hlt ==> r.value.running == s.running
    ensures op == Hlt ==> r.Success? && !r.value.running
  {
    match op
    case Ldi => HandleLdi(s, a, b)
    case Prn => HandlePrn(s, a, b)
    case Hlt => HandleHlt(s, a, b)
    case Mul => HandleMul(s, a, b)
    case Add => HandleAdd(s, a, b)
    case Push => HandlePush(s, a, b)
    case Pop => HandlePop(s, a, b)
    case Call => HandleCall(s, a, b)
    case Ret => HandleRet(s, a, b)
    case Cmp => HandleCmp(s, a, b)
    case Jmp => HandleJmp(s, a, b)
    case Jeq => HandleJeq(s, a, b)
    case Jne => HandleJne(s, a, b)
  }

  /** The three fetches succeed exactly when pc, pc + 1 and pc + 2 all index memory. */
  predicate CanFetch(s: State) {
    -(RAM_SIZE as int) <= s.pc && s.pc + 2 < RAM_SIZE
  }

  /** The byte `offset` cells after the program counter. */
  function Fetched(s: State, offset: nat): int
    requires CanFetch(s) && offset <= 2
  {
    s.ram[Slot(RAM_SIZE, s.pc + offset)]
  }

  /** One iteration of the loop in `run`: fetch the opcode and both operand bytes, then
      either invoke the registered handler or, for an unregistered byte, stop silently. */
  function Step(s: State): (r: Result<State, Error>)
    ensures !Indexable(RAM_SIZE, s.pc) ==> r == Failure(RamIndexError(s.pc))
    ensures Indexable(RAM_SIZE, s.pc) && !Indexable(RAM_SIZE, s.pc + 1) ==>
      r == Failure(RamIndexError(s.pc + 1))
    ensures Indexable(RAM_SIZE, s.pc + 1) && !Indexable(RAM_SIZE, s.pc + 2) ==>
      r == Failure(RamIndexError(s.pc + 2))
    ensures CanFetch(s) && Decode(Fetched(s, 0)).None? ==> r == Success(s.(running := false))
    ensures CanFetch(s) && Decode(Fetched(s, 0)).Some? ==>
      r == Execute(Decode(Fetched(s, 0)).value, s, Fetched(s, 1), Fetched(s, 2))
    ensures r.Success? ==> s.output <= r.value.output && |r.value.output| <= |s.output| + 1
    ensures r.Success? && r.value.running ==> s.running
  {
    var ir :- RamRead(s, s.pc);
    var a :- RamRead(s, s.pc + 1);
    var b :- RamRead(s, s.pc + 2);
    match Decode(ir)
    case None => Success(s.(running := false))
    case Some(op) => Execute(op, s, a, b)
  }

  /** A loop body that never takes back printed output, prints at most one value per
      iteration, and never sets the running bit. */
  predicate Progresses(x: State, y: State) {
    x.output <= y.output && |y.output| <= |x.output| + 1 && (y.running ==> x.running)
  }

  ghost predicate WellBehaved(next: State -> Result<State, Error>) {
    forall x :: next(x).Success? ==> Progresses(x, next(x).value)
  }

  /** The `while self.running` loop around an arbitrary body, bounded by `fuel` iterations:
      the first error, or the state once running is clear or the fuel is spent. */
  function Iterate(next: State -> Result<State, Error>, s: State, fuel: nat): (r: Result<State, Error>)
    ensures !s.running ==> r == Success(s)
    ensures fuel == 0 ==> r == Success(s)
    ensures WellBehaved(next) && r.Success? ==>
      s.output <= r.value.output && |r.value.output| <= |s.output| + fuel
    ensures WellBehaved(next) && r.Success? && r.value.running ==> s.running
    decreases fuel
  {
    if !s.running || fuel == 0 then Success(s)
    else
      var t :- next(s);
      Iterate(next, t, fuel - 1)
  }

  /** `run`, bounded by `fuel` iterations: step while the running bit is set. A result that
      is still running means the fuel ran out first. */
  function Run(s: State, fuel: nat): (r: Result<State, Error>)
    ensures !s.running ==> r == Success(s)
    ensures fuel == 0 ==> r == Success(s)
    ensures r.Success? ==> s.output <= r.value.output
    ensures r.Success? ==> |r.value.output| <= |s.output| + fuel
    ensures r.Success? && r.value.running ==> s.running
  {
    assert WellBehaved(Step);
    Iterate(Step, s, fuel)
  }
}

=== FILE: handlers.dfy ===
/** The thirteen opcode handlers. Each receives the two bytes that follow the opcode and
    either returns the next state or the error the CPU raises. Each handler advances the
    program counter itself; a handler that does not touch it leaves it where it was. */
module Handlers {
  import opened Wrappers
  import opened Machine
  import Alu

  /** LDI: `reg[a] = b`, then skip the three-byte instruction. */
  function HandleLdi(s: State, a: int, b: int): (r: Result<State, Error>)
    ensures r.Success? <==> Indexable(REG_COUNT, a)
    ensures r.Failure? ==> r.error == RegIndexError(a)
    ensures r.Success? ==> r.value.reg[Slot(REG_COUNT, a)] == b
    ensures r.Success? ==> RegsAgreeExcept(s.reg, r.value.reg, Slot(REG_COUNT, a))
    ensures r.Success? ==> r.value.(reg := s.reg) == s.(pc := s.pc + 3)
  {
    var t :- RegWrite(s, a, b);
    Success(t.(pc := t.pc + 3))
  }

  /** PRN: emit `reg[a]`, then skip the two-byte instruction. */
  function HandlePrn(s: State, a: int, b: int): (r: Result<State, Error>)
    ensures r.Success? <==> Indexable(REG_COUNT, a)
    ensures r.Failure? ==> r.error == RegIndexError(a)
    ensures r.Success? ==> r.value.output == s.output + [s.reg[Slot(REG_COUNT, a)]]
    ensures r.Success? ==> r.value.(output := s.output) == s.(pc := s.pc + 2)
  {
    var v :- RegRead(s, a);
    Success(s.(output := s.output + [v], pc := s.pc + 2))
  }

  /** HLT: clear the running bit; the program counter stays on the HLT instruction. */
  function HandleHlt(s: State, a: int, b: int): (r: Result<State, Error>)
    ensures r.Success? && !r.value.running
    ensures r.value.(running := s.running) == s
  {
    Success(s.(running := false))
  }

  /** MUL: `reg[a] *= reg[b]` through the ALU, then skip three bytes. */
  function HandleMul(s: State, a: int, b: int): (r: Result<State, Error>)
    ensures r.Success? <==> Indexable(REG_COUNT, a) && Indexable(REG_COUNT, b)
    ensures r.Failure? ==> r.error == RegIndexError(if Indexable(REG_COUNT, a) then b else a)
    ensures r.Success? ==>
      r.value.reg[Slot(REG_COUNT, a)] == s.reg[Slot(REG_COUNT, a)] * s.reg[Slot(REG_COUNT, b)]
    ensures r.Success? ==> RegsAgreeExcept(s.reg, r.value.reg, Slot(REG_COUNT, a))
    ensures r.Success? ==> r.value.(reg := s.reg) == s.(pc := s.pc + 3)
  {
    var t :- Alu.Apply(s, Alu.Mul, a, b);
    Success(t.(pc := t.pc + 3))
  }

  /** ADD: `reg[a] += reg[b]` through the ALU, then skip three bytes. */
  function HandleAdd(s: State, a: int, b: int): (r: Result<State, Error>)
    ensures r.Success? <==> Indexable(REG_COUNT, a) && Indexable(REG_COUNT, b)
    ensures r.Failure? ==> r.error == RegIndexError(if Indexable(REG_COUNT, a) then b else a)
    ensures r.Success? ==>
      r.value.reg[Slot(REG_COUNT, a)] == s.reg[Slot(REG_COUNT, a)] + s.reg[Slot(REG_COUNT, b)]
    ensures r.Success? ==> RegsAgreeExcept(s.reg, r.value.reg, Slot(REG_COUNT, a))
    ensures r.Success? ==> r.value.(reg := s.reg) == s.(pc := s.pc + 3)
  {
    var t :- Alu.Apply(s, Alu.Add, a, b);
    Success(t.(pc := t.pc + 3))
  }

  /** PUSH: push `reg[a]` (read before the stack pointer moves), then skip two bytes. */
  function HandlePush(s: State, a: int, b: int): (r: Result<State, Error>)
    ensures r.Success? <==> Indexable(REG_COUNT, a) && Indexable(RAM_SIZE, s.reg[SP] - 1)
    ensures r.Failure? ==>
      r.error == (if Indexable(REG_COUNT, a) then RamIndexError(s.reg[SP] - 1) else RegIndexError(a))
    ensures r.Success? ==> r.value.reg[SP] == s.reg[SP] - 1
    ensures r.Success? ==> RegsAgreeExcept(s.reg, r.value.reg, SP)
    ensures r.Success? ==> r.value.ram[Slot(RAM_SIZE, s.reg[SP] - 1)] == s.reg[Slot(REG_COUNT, a)]
    ensures r.Success? ==> forall k :: 0 <= k < RAM_SIZE && k != Slot(RAM_SIZE, s.reg[SP] - 1) ==>
      r.value.ram[k] == s.ram[k]
    ensures r.Success? ==> r.value.(ram := s.ram, reg := s.reg) == s.(pc := s.pc + 2)
  {
    var v :- RegRead(s, a);
    var t :- Push(s, v);
    Success(t.(pc := t.pc + 2))
  }

  /** POP: `reg[a] = pop()`. The pop, which increments the stack pointer, happens before the
      assignment, so popping into the stack-pointer register overwrites the incremented value. */
  function HandlePop(s: State, a: int, b: int): (r: Result<State, Error>)
    ensures r.Success? <==> Indexable(RAM_SIZE, s.reg[SP]) && Indexable(REG_COUNT, a)
    ensures r.Failure? ==>
      r.error == (if Indexable(RAM_SIZE, s.reg[SP]) then RegIndexError(a) else RamIndexError(s.reg[SP]))
    ensures r.Success? ==> r.value.reg[Slot(REG_COUNT, a)] == s.ram[Slot(RAM_SIZE, s.reg[SP])]
    ensures r.Success? && Slot(REG_COUNT, a) != SP ==> r.value.reg[SP] == s.reg[SP] + 1
    ensures r.Success? ==> forall j :: 0 <= j < REG_COUNT && j != SP && j != Slot(REG_COUNT, a) ==>
      r.value.reg[j] == s.reg[j]
    ensures r.Success? ==> r.value.(reg := s.reg) == s.(pc := s.pc + 2)
  {
    var popped :- Pop(s);
    var t :- RegWrite(popped.0, a, popped.1);
    Success(t.(pc := t.pc + 2))
  }

  /** CALL, as the CPU implements it: decrement the stack pointer, store `pc + 2` in the cell
      it names, then call `ram_write(reg[SP], pc + 2)`, which by that method's (value,
      address) parameter order stores the stack pointer at address `pc + 2`. The program
      counter is never changed and operand `a` is never read. */
  function HandleCall(s: State, a: int, b: int): (r: Result<State, Error>)
    ensures r.Success? <==> Indexable(RAM_SIZE, s.reg[SP] - 1) && Indexable(RAM_SIZE, s.pc + 2)
    ensures r.Failure? ==>
      r.error == RamIndexError(if Indexable(RAM_SIZE, s.reg[SP] - 1) then s.pc + 2 else s.reg[SP] - 1)
    ensures r.Success? ==> r.value.pc == s.pc
    ensures r.Success? ==> r.value.reg[SP] == s.reg[SP] - 1
    ensures r.Success? ==> RegsAgreeExcept(s.reg, r.value.reg, SP)
    ensures r.Success? ==> r.value.ram[Slot(RAM_SIZE, s.pc + 2)] == s.reg[SP] - 1
    ensures r.Success? && Slot(RAM_SIZE, s.reg[SP] - 1) != Slot(RAM_SIZE, s.pc + 2) ==>
      r.value.ram[Slot(RAM_SIZE, s.reg[SP] - 1)] == s.pc + 2
    ensures r.Success? ==> forall k ::
      (0 <= k < RAM_SIZE && k != Slot(RAM_SIZE, s.reg[SP] - 1) && k != Slot(RAM_SIZE, s.pc + 2)) ==>
      r.value.ram[k] == s.ram[k]
    ensures r.Success? ==> r.value.(ram := s.ram, reg := s.reg) == s
  {
    var t := s.(reg := s.reg[SP := s.reg[SP] - 1]);
    var u :- RamWrite(t, t.pc + 2, t.reg[SP]);
    RamWrite(u, u.reg[SP], u.pc + 2)
  }

  /** RET: `pc = ram[reg[SP]]`, then increment the stack pointer. */
  function HandleRet(s: State, a: int, b: int): (r: Result<State, Error>)
    ensures r.Success? <==> Indexable(RAM_SIZE, s.reg[SP])
    ensures r.Failure? ==> r.error == RamIndexError(s.reg[SP])
    ensures r.Success? ==> r.value.pc == s.ram[Slot(RAM_SIZE, s.reg[SP])]
    ensures r.Success? ==> r.value.reg[SP] == s.reg[SP] + 1
    ensures r.Success? ==> RegsAgreeExcept(s.reg, r.value.reg, SP)
    ensures r.Success? ==> r.value.(pc := s.pc, reg := s.reg) == s
  {
    var target :- RamRead(s, s.reg[SP]);
    Success(s.(pc := target, reg := s.reg[SP := s.reg[SP] + 1]))
  }

  /** CMP: compare through the ALU, then skip three bytes. */
  function HandleCmp(s: State, a: int, b: int): (r: Result<State, Error>)
    ensures r.Success? <==> Indexable(REG_COUNT, a) && Indexable(REG_COUNT, b)
    ensures r.Failure? ==> r.error == RegIndexError(if Indexable(REG_COUNT, a) then b else a)
    ensures r.Success? ==> r.value.flag.Some?
    ensures r.Success? ==>
      && (r.value.flag == Some(Lt) <==> s.reg[Slot(REG_COUNT, a)] < s.reg[Slot(REG_COUNT, b)])
      && (r.value.flag == Some(Gt) <==> s.reg[Slot(REG_COUNT, a)] > s.reg[Slot(REG_COUNT, b)])
      && (r.value.flag == Some(Et) <==> s.reg[Slot(REG_COUNT, a)] == s.reg[Slot(REG_COUNT, b)])
    ensures r.Success? ==> r.value.(flag := s.flag) == s.(pc := s.pc + 3)
  {
    var t :- Alu.Apply(s, Alu.Cmp, a, b);
    Success(t.(pc := t.pc + 3))
  }

  /** JMP: `pc = reg[a]`. */
  function HandleJmp(s: State, a: int, b: int): (r: Result<State, Error>)
    ensures r.Success? <==> Indexable(REG_COUNT, a)
    ensures r.Failure? ==> r.error == RegIndexError(a)
    ensures r.Success? ==> r.value.pc == s.reg[Slot(REG_COUNT, a)]
    ensures r.Success? ==> r.value.(pc := s.pc) == s
  {
    var target :- RegRead(s, a);
    Success(s.(pc := target))
  }

  /** JEQ: branch on `flag & et`. Taken, it sets `pc = reg[a] + 2`; not taken, it skips two
      bytes. With no comparison yet, `None & et` raises. */
  function HandleJeq(s: State, a: int, b: int): (r: Result<State, Error>)
    ensures s.flag.None? ==> r == Failure(FlagUnset)
    ensures s.flag == Some(Et) ==> (r.Success? <==> Indexable(REG_COUNT, a))
    ensures s.flag == Some(Et) && r.Failure? ==> r.error == RegIndexError(a)
    ensures s.flag == Some(Et) && r.Success? ==> r.value.pc == s.reg[Slot(REG_COUNT, a)] + 2
    ensures s.flag.Some? && s.flag != Some(Et) ==> r.Success? && r.value.pc == s.pc + 2
    ensures r.Success? ==> r.value.(pc := s.pc) == s
  {
    match s.flag
    case None => Failure(FlagUnset)
    case Some(f) =>
      if AndEt(f) != 0 then
        var target :- RegRead(s, a);
        Success(s.(pc := target + 2))
      else
        Success(s.(pc := s.pc + 2))
  }

  /** JNE: branch on `not flag & et`. Taken, it sets `pc = reg[a] - 1`; not taken, it skips
      two bytes. With no comparison yet, `None & et` raises. */
  function HandleJne(s: State, a: int, b: int): (r: Result<State, Error>)
    ensures s.flag.None? ==> r == Failure(FlagUnset)
    ensures s.flag.Some? && s.flag != Some(Et) ==> (r.Success? <==> Indexable(REG_COUNT, a))
    ensures s.flag.Some? && s.flag != Some(Et) && r.Failure? ==> r.error == RegIndexError(a)
    ensures s.flag.Some? && s.flag != Some(Et) && r.Success? ==>
      r.value.pc == s.reg[Slot(REG_COUNT, a)] - 1
    ensures s.flag == Some(Et) ==> r.Success? && r.value.pc == s.pc + 2
    ensures r.Success? ==> r.value.(pc := s.pc) == s
  {
    match s.flag
    case None => Failure(FlagUnset)
    case Some(f) =>
      if AndEt(f) == 0 then
        var target :- RegRead(s, a);
        Success(s.(pc := target - 1))
      else
        Success(s.(pc := s.pc + 2))
  }
}

=== FILE: machine.dfy ===
/** The state of one LS-8 CPU instance and the primitives that read and write it:
    memory access, register access, the stack, construction and program loading. */
module Machine {
  import opened Wrappers

  /** Number of memory cells. */
  const RAM_SIZE: nat := 256
  /** Number of general-purpose registers. */
  const REG_COUNT: nat := 8
  /** The register that holds the stack pointer. */
  const SP: nat := 7

  /** Memory cells hold unbounded integers: nothing in the CPU masks values to a byte. */
  type Memory = m: seq<int> | |m| == RAM_SIZE witness seq(RAM_SIZE, i => 0)
  type Registers = r: seq<int> | |r| == REG_COUNT witness seq(REG_COUNT, i => 0)

  /** Outcome of the most recent comparison. */
  datatype Flag = Lt | Gt | Et

  /** The bit codes the CPU stores in its flag register for each outcome. */
  const LT_CODE: int := 4
  const GT_CODE: int := 2
  const ET_CODE: int := 1

  function Code(f: Flag): int {
    match f
    case Lt => LT_CODE
    case Gt => GT_CODE
    case Et => ET_CODE
  }

  /** The value of `flag & et` for a set flag. The codes are non-negative and `et` is the
      single low bit, so the bitwise and is the code's remainder modulo 2. */
  function AndEt(f: Flag): (r: int)
    ensures r != 0 <==> f == Et
  {
    Code(f) % 2
  }

  /** Why an instruction stopped the CPU with an exception. */
  datatype Error =
    | RamIndexError(address: int)   // an index into memory outside the list
    | RegIndexError(index: int)     // an index into the register file outside the list
    | FlagUnset                     // a conditional jump read the flag before any comparison

  /** The CPU: memory, registers (register SP is the stack pointer), program counter,
      comparison flag (None until the first compare), the running bit, and every value
      printed by PRN so far. */
  datatype State = State(
    ram: Memory,
    reg: Registers,
    pc: int,
    flag: Option<Flag>,
    running: bool,
    output: seq<int>)

  /** A freshly constructed CPU: everything zero, the stack pointer included. */
  function Init(): (s: State)
    ensures forall k :: 0 <= k < RAM_SIZE ==> s.ram[k] == 0
    ensures forall j :: 0 <= j < REG_COUNT ==> s.reg[j] == 0
    ensures s.pc == 0 && s.flag == None && s.running && s.output == []
  {
    State(seq(RAM_SIZE, k => 0), seq(REG_COUNT, j => 0), 0, None, true, [])
  }

  /** Python list indexing accepts -len <= i < len; a negative index counts from the end. */
  predicate Indexable(len: nat, i: int) {
    -(len as int) <= i < len
  }

  /** The list position that an accepted index denotes. */
  function Slot(len: nat, i: int): (k: nat)
    requires Indexable(len, i)
    ensures k < len
    ensures 0 <= i ==> k == i
    ensures i < 0 ==> k == len + i
  {
    (i + len) % len
  }

  /** The two register files agree everywhere except possibly at position k. */
  predicate RegsAgreeExcept(x: Registers, y: Registers, k: int) {
    forall j :: 0 <= j < REG_COUNT && j != k ==> y[j] == x[j]
  }

  /** `ram_read(mar)`. */
  function RamRead(s: State, mar: int): (r: Result<int, Error>)
    ensures r.Success? <==> Indexable(RAM_SIZE, mar)
    ensures r.Failure? ==> r.error == RamIndexError(mar)
    ensures r.Success? ==> r.value == s.ram[Slot(RAM_SIZE, mar)]
  {
    if Indexable(RAM_SIZE, mar) then Success(s.ram[Slot(RAM_SIZE, mar)])
    else Failure(RamIndexError(mar))
  }

  /** `ram_write(mdr, mar)`: the value comes first, the address second. */
  function RamWrite(s: State, mdr: int, mar: int): (r: Result<State, Error>)
    ensures r.Success? <==> Indexable(RAM_SIZE, mar)
    ensures r.Failure? ==> r.error == RamIndexError(mar)
    ensures r.Success? ==> r.value.(ram := s.ram) == s
    ensures r.Success? ==> forall k :: 0 <= k < RAM_SIZE ==>
      r.value.ram[k] == if k == Slot(RAM_SIZE, mar) then mdr else s.ram[k]
  {
    if Indexable(RAM_SIZE, mar) then Success(s.(ram := s.ram[Slot(RAM_SIZE, mar) := mdr]))
    else Failure(RamIndexError(mar))
  }

  /** Reading `reg[i]`. */
  function RegRead(s: State, i: int): (r: Result<int, Error>)
    ensures r.Success? <==> Indexable(REG_COUNT, i)
    ensures r.Failure? ==> r.error == RegIndexError(i)
    ensures r.Success? ==> r.value == s.reg[Slot(REG_COUNT, i)]
  {
    if Indexable(REG_COUNT, i) then Success(s.reg[Slot(REG_COUNT, i)])
    else Failure(RegIndexError(i))
  }

  /** Assigning `reg[i] = v`. */
  function RegWrite(s: State, i: int, v: int): (r: Result<State, Error>)
    ensures r.Success? <==> Indexable(REG_COUNT, i)
    ensures r.Failure? ==> r.error == RegIndexError(i)
    ensures r.Success? ==> r.value.(reg := s.reg) == s
    ensures r.Success? ==> r.value.reg[Slot(REG_COUNT, i)] == v
    ensures r.Success? ==> RegsAgreeExcept(s.reg, r.value.reg, Slot(REG_COUNT, i))
  {
    if Indexable(REG_COUNT, i) then Success(s.(reg := s.reg[Slot(REG_COUNT, i) := v]))
    else Failure(RegIndexError(i))
  }

  /** `push(value)`: decrement the stack pointer, then store the value at the cell it now
      names. There is no stack-region check; the only failure is an index outside memory. */
  function Push(s: State, value: int): (r: Result<State, Error>)
    ensures r.Success? <==> Indexable(RAM_SIZE, s.reg[SP] - 1)
    ensures r.Failure? ==> r.error == RamIndexError(s.reg[SP] - 1)
    ensures r.Success? ==> r.value.(ram := s.ram, reg := s.reg) == s
    ensures r.Success? ==> r.value.reg[SP] == s.reg[SP] - 1
    ensures r.Success? ==> RegsAgreeExcept(s.reg, r.value.reg, SP)
    ensures r.Success? ==> r.value.ram[Slot(RAM_SIZE, s.reg[SP] - 1)] == value
    ensures r.Success? ==> forall k :: 0 <= k < RAM_SIZE && k != Slot(RAM_SIZE, s.reg[SP] - 1) ==>
      r.value.ram[k] == s.ram[k]
  {
    var t := s.(reg := s.reg[SP := s.reg[SP] - 1]);
    RamWrite(t, value, t.reg[SP])
  }

  /** `pop()`: read the cell the stack pointer names, then increment the stack pointer. */
  function Pop(s: State): (r: Result<(State, int), Error>)
    ensures r.Success? <==> Indexable(RAM_SIZE, s.reg[SP])
    ensures r.Failure? ==> r.error == RamIndexError(s.reg[SP])
    ensures r.Success? ==> r.value.1 == s.ram[Slot(RAM_SIZE, s.reg[SP])]
    ensures r.Success? ==> r.value.0.(reg := s.reg) == s
    ensures r.Success? ==> r.value.0.reg[SP] == s.reg[SP] + 1
    ensures r.Success? ==> RegsAgreeExcept(s.reg, r.value.0.reg, SP)
  {
    var value :- RamRead(s, s.reg[SP]);
    Success((s.(reg := s.reg[SP := s.reg[SP] + 1]), value))
  }

  /** `load(program)`: copy the program into memory from address 0 upwards. A program longer
      than memory raises when the copy reaches address RAM_SIZE. */
  function Load(s: State, program: seq<int>): (r: Result<State, Error>)
    ensures r.Success? <==> |program| <= RAM_SIZE
    ensures r.Failure? ==> r.error == RamIndexError(RAM_SIZE)
    ensures r.Success? ==> r.value.(ram := s.ram) == s
    ensures r.Success? ==> forall k :: 0 <= k < |program| ==> r.value.ram[k] == program[k]
    ensures r.Success? ==> forall k :: |program| <= k < RAM_SIZE ==> r.value.ram[k] == s.ram[k]
  {
    LoadFrom(s, program, 0)
  }

  /** The copy loop of `load` from `address` on: cells below `address` are already done. */
  function LoadFrom(s: State, program: seq<int>, address: nat): (r: Result<State, Error>)
    requires address <= |program| && address <= RAM_SIZE
    ensures r.Success? <==> |program| <= RAM_SIZE
    ensures r.Failure? ==> r.error == RamIndexError(RAM_SIZE)
    ensures r.Success? ==> r.value.(ram := s.ram) == s
    ensures r.Success? ==> forall k :: 0 <= k < address ==> r.value.ram[k] == s.ram[k]
    ensures r.Success? ==> forall k :: address <= k < |program| ==> r.value.ram[k] == program[k]
    ensures r.Success? ==> forall k :: |program| <= k < RAM_SIZE ==> r.value.ram[k] == s.ram[k]
    decreases |program| - address
  {
    if address == |program| then Success(s)
    else if address == RAM_SIZE then Failure(RamIndexError(address))
    else LoadFrom(s.(ram := s.ram[address := program[address]]), program, address + 1)
  }
}

=== FILE: properties.dfy ===
/** Properties that relate several operations of the CPU. */
module Properties {
  import opened Wrappers
  import opened Machine
  import opened Handlers
  import Dispatch

  /** Reading a cell after writing one returns the written value when both addresses name
      the same cell (a negative address aliases the cell 256 above it) and the old contents
      otherwise. */
  lemma ReadAfterWrite(s: State, value: int, written: int, read: int)
    requires Indexable(RAM_SIZE, written)
    ensures RamRead(RamWrite(s, value, written).value, read) ==
      if Indexable(RAM_SIZE, read) && Slot(RAM_SIZE, read) == Slot(RAM_SIZE, written)
      then Success(value) else RamRead(s, read)
  {
  }

  /** `pop()` right after `push(v)` returns v and restores the stack pointer; the registers
      are as before and memory differs only in the one cell the push wrote. */
  lemma PushPopRoundTrip(s: State, v: int)
    requires Push(s, v).Success?
    ensures Pop(Push(s, v).value).Success?
    ensures Pop(Push(s, v).value).value.1 == v
    ensures Pop(Push(s, v).value).value.0.reg == s.reg
    ensures Pop(Push(s, v).value).value.0 == s.(ram := s.ram[Slot(RAM_SIZE, s.reg[SP] - 1) := v])
  {
  }

  /** PUSH a followed by POP b moves the old value of register a into register b and puts
      the stack pointer back, when b is not the stack pointer itself. */
  lemma PushThenPopMovesRegister(s: State, a: int, b: int, x: int, y: int)
    requires HandlePush(s, a, x).Success?
    requires Indexable(REG_COUNT, b) && Slot(REG_COUNT, b) != SP
    ensures HandlePop(HandlePush(s, a, x).value, b, y).Success?
    ensures var u := HandlePop(HandlePush(s, a, x).value, b, y).value;
      && u.reg[Slot(REG_COUNT, b)] == s.reg[Slot(REG_COUNT, a)]
      && u.reg[SP] == s.reg[SP]
      && RegsAgreeExcept(s.reg, u.reg, Slot(REG_COUNT, b))
      && u.pc == s.pc + 4
      && u.flag == s.flag && u.output == s.output && u.running == s.running
  {
  }

  /** PUSH a followed by POP into the stack pointer (register 7 or -1) leaves the old value
      of register a in the stack pointer: the pop's increment is overwritten. */
  lemma PushThenPopIntoStackPointer(s: State, a: int, b: int, x: int, y: int)
    requires HandlePush(s, a, x).Success?
    requires Indexable(REG_COUNT, b) && Slot(REG_COUNT, b) == SP
    ensures HandlePop(HandlePush(s, a, x).value, b, y).Success?
    ensures var u := HandlePop(HandlePush(s, a, x).value, b, y).value;
      && u.reg[SP] == s.reg[Slot(REG_COUNT, a)]
      && RegsAgreeExcept(s.reg, u.reg, SP)
      && u.pc == s.pc + 4
      && u.flag == s.flag && u.output == s.output && u.running == s.running
  {
  }

  /** With a flag set, exactly one of JEQ and JNE takes its branch: JEQ when the last
      comparison was equal, JNE otherwise. The taken branch lands at reg[a] + 2 for JEQ
      and reg[a] - 1 for JNE; the untaken one skips two bytes. Without a flag both raise. */
  lemma JeqJneComplementary(s: State, a: int, b: int)
    ensures s.flag.None? ==> HandleJeq(s, a, b).Failure? && HandleJne(s, a, b).Failure?
    ensures s.flag.Some? && Indexable(REG_COUNT, a) ==>
      HandleJeq(s, a, b).Success? && HandleJne(s, a, b).Success?
    ensures s.flag == Some(Et) && Indexable(REG_COUNT, a) ==>
      HandleJeq(s, a, b).value.pc == s.reg[Slot(REG_COUNT, a)] + 2 &&
      HandleJne(s, a, b).value.pc == s.pc + 2
    ensures s.flag.Some? && s.flag != Some(Et) && Indexable(REG_COUNT, a) ==>
      HandleJeq(s, a, b).value.pc == s.pc + 2 &&
      HandleJne(s, a, b).value.pc == s.reg[Slot(REG_COUNT, a)] - 1
  {
  }

  /** CMP then JEQ: the jump to reg[c] + 2 is taken exactly when the compared registers were
      equal; otherwise the two instructions together advance pc by 5. */
  lemma CmpThenJeq(s: State, a: int, b: int, c: int, y: int)
    requires Indexable(REG_COUNT, a) && Indexable(REG_COUNT, b) && Indexable(REG_COUNT, c)
    ensures HandleCmp(s, a, b).Success? && HandleJeq(HandleCmp(s, a, b).value, c, y).Success?
    ensures HandleJeq(HandleCmp(s, a, b).value, c, y).value.pc ==
      if s.reg[Slot(REG_COUNT, a)] == s.reg[Slot(REG_COUNT, b)]
      then s.reg[Slot(REG_COUNT, c)] + 2 else s.pc + 5
  {
  }

  /** CMP then JNE: the jump to reg[c] - 1 is taken exactly when the compared registers
      differed; otherwise the two instructions together advance pc by 5. */
  lemma CmpThenJne(s: State, a: int, b: int, c: int, y: int)
    requires Indexable(REG_COUNT, a) && Indexable(REG_COUNT, b) && Indexable(REG_COUNT, c)
    ensures HandleCmp(s, a, b).Success? && HandleJne(HandleCmp(s, a, b).value, c, y).Success?
    ensures HandleJne(HandleCmp(s, a, b).value, c, y).value.pc ==
      if s.reg[Slot(REG_COUNT, a)] != s.reg[Slot(REG_COUNT, b)]
      then s.reg[Slot(REG_COUNT, c)] - 1 else s.pc + 5
  {
  }

  /** PUSH a then RET: RET jumps to the value register a held and puts the stack pointer
      back, so every register is as before the push. */
  lemma PushThenRet(s: State, a: int, x: int, y: int, z: int)
    requires HandlePush(s, a, x).Success?
    ensures HandleRet(HandlePush(s, a, x).value, y, z).Success?
    ensures HandleRet(HandlePush(s, a, x).value, y, z).value.pc == s.reg[Slot(REG_COUNT, a)]
    ensures HandleRet(HandlePush(s, a, x).value, y, z).value.reg == s.reg
  {
  }

  /** The stack pointer of a fresh CPU is 0, so the first push moves it to -1 and, through
      negative indexing, stores into the last memory cell. */
  lemma FirstPushWritesTopCell(v: int)
    ensures Push(Init(), v).Success?
    ensures Push(Init(), v).value.reg[SP] == -1
    ensures Push(Init(), v).value.ram[RAM_SIZE - 1] == v
  {
  }

  /** ADD keeps the exact sum: 200 + 100 stays 300 rather than wrapping to 44. */
  lemma AddDoesNotWrap(s: State)
    requires s.reg[0] == 200 && s.reg[1] == 100
    ensures HandleAdd(s, 0, 1).Success? && HandleAdd(s, 0, 1).value.reg[0] == 300
  {
  }

  /** Every opcode's byte decodes back to that opcode, and no two opcodes share a byte. */
  lemma DecodeByte(op: Dispatch.Opcode, other: Dispatch.Opcode)
    ensures Dispatch.Decode(Dispatch.Byte(op)) == Some(op)
    ensures Dispatch.Byte(op) == Dispatch.Byte(other) ==> op == other
  {
  }

  /** One CALL, executed through the dispatch loop, leaves the program counter where it was
      and the CALL byte in place, with the stack pointer one lower, whenever the cell the
      stack grows into is a valid index other than the CALL's own cell. */
  lemma CallStaysPut(s: State)
    requires s.running && Dispatch.CanFetch(s) && Dispatch.Fetched(s, 0) == Dispatch.CALL
    requires Indexable(RAM_SIZE, s.reg[SP] - 1)
    requires Slot(RAM_SIZE, s.reg[SP] - 1) != Slot(RAM_SIZE, s.pc)
    ensures Dispatch.Step(s).Success?
    ensures Dispatch.Step(s).value.pc == s.pc && Dispatch.Step(s).value.running
    ensures Dispatch.Step(s).value.reg[SP] == s.reg[SP] - 1
    ensures Dispatch.Fetched(Dispatch.Step(s).value, 0) == Dispatch.CALL
  {
  }

  /** The i-th cell below stack pointer `sp` is a valid index and is not memory cell `cell`. */
  predicate StackCellClear(sp: int, cell: nat, i: int) {
    Indexable(RAM_SIZE, sp - i) && Slot(RAM_SIZE, sp - i) != cell
  }

  /** Executing CALL leaves the program counter on the CALL instruction, so as long as the
      cells the stack grows into stay clear of it the CPU re-executes the same CALL, moving
      the stack pointer down by one each time, without ever reaching the subroutine. */
  lemma {:induction false} CallSpins(s: State, n: nat)
    requires s.running && Dispatch.CanFetch(s) && Dispatch.Fetched(s, 0) == Dispatch.CALL
    requires forall i :: 1 <= i <= n ==> StackCellClear(s.reg[SP], Slot(RAM_SIZE, s.pc), i)
    ensures Dispatch.Run(s, n).Success?
    ensures Dispatch.Run(s, n).value.pc == s.pc && Dispatch.Run(s, n).value.running
    ensures Dispatch.Run(s, n).value.reg[SP] == s.reg[SP] - n
    ensures Dispatch.Fetched(Dispatch.Run(s, n).value, 0) == Dispatch.CALL
    decreases n
  {
    if n > 0 {
      assert StackCellClear(s.reg[SP], Slot(RAM_SIZE, s.pc), 1);
      CallStaysPut(s);
      var t := Dispatch.Step(s).value;
      assert Dispatch.Run(s, n) == Dispatch.Run(t, n - 1);
      forall i | 1 <= i <= n - 1
        ensures StackCellClear(t.reg[SP], Slot(RAM_SIZE, t.pc), i)
      {
        assert StackCellClear(s.reg[SP], Slot(RAM_SIZE, s.pc), i + 1);
      }
      CallSpins(t, n - 1);
    }
  }

  /** When the stack cell CALL writes is the CALL's own cell, the CALL byte is replaced by
      pc + 2. At pc 15 that value is the RET opcode, so the next step returns to pc + 2 = 17
      and the stack pointer is back where it started. */
  lemma CallOverwritingItselfReturns(s: State)
    requires s.running && s.pc == 15 && s.reg[SP] == 16 && s.ram[15] == Dispatch.CALL
    ensures Dispatch.Run(s, 2).Success?
    ensures Dispatch.Run(s, 2).value.pc == 17
    ensures Dispatch.Run(s, 2).value.reg == s.reg
    ensures Dispatch.Run(s, 2).value.ram[15] == Dispatch.RET
  {
    StepDispatches(s, Dispatch.Call);
    var t := Dispatch.Step(s).value;
    assert t.ram[15] == Dispatch.RET && t.pc == 15 && t.running;
    StepDispatches(t, Dispatch.Ret);
    var u := Dispatch.Step(t).value;
    assert u.reg == s.reg && u.ram == t.ram;
    assert Dispatch.Run(t, 1) == Success(u);
  }

  /** A CALL whose next stack cell lies below -256 raises at that address: the stack pointer
      cannot fall further than one step past -256. */
  lemma CallBelowMemoryRaises(s: State)
    requires s.running && Dispatch.CanFetch(s) && Dispatch.Fetched(s, 0) == Dispatch.CALL
    requires !Indexable(RAM_SIZE, s.reg[SP] - 1)
    ensures Dispatch.Step(s) == Failure(RamIndexError(s.reg[SP] - 1))
  {
    StepDispatches(s, Dispatch.Call);
  }

  /** A CALL at address 0 whose next stack cell is address 0 itself replaces its own byte
      with pc + 2 = 2, which is no opcode, so the following iteration stops the loop. */
  lemma CallOverwritingItselfAtZeroHalts(s: State)
    requires s.running && s.pc == 0 && s.reg[SP] == -255 && s.ram[0] == Dispatch.CALL
    ensures Dispatch.Run(s, 2).Success? && !Dispatch.Run(s, 2).value.running
    ensures Dispatch.Run(s, 2).value.pc == 0 && Dispatch.Run(s, 2).value.ram[0] == 2
  {
    StepDispatches(s, Dispatch.Call);
    var t := Dispatch.Step(s).value;
    assert t.ram[0] == 2 && t.pc == 0 && t.running;
    assert Dispatch.Decode(Dispatch.Fetched(t, 0)).None?;
    IterateOnce(Dispatch.Step, s, t, 2);
  }

  /** On a freshly constructed CPU a CALL at address 0 does not spin for ever: after 255
      iterations the stack pointer reaches the CALL's own cell, and two more stop the loop. */
  lemma CallOnFreshCpuHalts()
    ensures var s := Init().(ram := Init().ram[0 := Dispatch.CALL]);
      Dispatch.Run(s, 257).Success? && !Dispatch.Run(s, 257).value.running
  {
    var s := Init().(ram := Init().ram[0 := Dispatch.CALL]);
    forall i | 1 <= i <= 255
      ensures StackCellClear(s.reg[SP], Slot(RAM_SIZE, s.pc), i)
    {
      assert Slot(RAM_SIZE, -i) == RAM_SIZE - i;
    }
    CallSpins(s, 255);
    var t := Dispatch.Run(s, 255).value;
    assert t.ram[0] == Dispatch.CALL;
    CallOverwritingItselfAtZeroHalts(t);
    RunSplit(s, 255, 2);
  }

  /** `JMP R0` at the address R0 holds jumps to itself: the CPU state never changes and the
      loop never stops, whatever the fuel. */
  lemma {:induction false} JmpToItselfLoops(s: State, n: nat)
    requires s.running && Dispatch.CanFetch(s) && Dispatch.Fetched(s, 0) == Dispatch.JMP
    requires Indexable(REG_COUNT, Dispatch.Fetched(s, 1))
    requires s.reg[Slot(REG_COUNT, Dispatch.Fetched(s, 1))] == s.pc
    ensures Dispatch.Run(s, n) == Success(s)
    decreases n
  {
    if n > 0 {
      StepDispatches(s, Dispatch.Jmp);
      assert Dispatch.Step(s) == Success(s);
      IterateOnce(Dispatch.Step, s, s, n);
      JmpToItselfLoops(s, n - 1);
    }
  }

  /** Once a loop has halted, extra fuel changes nothing. */
  lemma {:induction false} IterateHaltedStable(next: State -> Result<State, Error>, s: State, n: nat, k: nat)
    requires Dispatch.Iterate(next, s, n).Success? && !Dispatch.Iterate(next, s, n).value.running
    ensures Dispatch.Iterate(next, s, n + k) == Dispatch.Iterate(next, s, n)
    decreases n
  {
    if s.running && n > 0 {
      IterateHaltedStable(next, next(s).value, n - 1, k);
    }
  }

  /** Once a run has halted, extra fuel changes nothing. */
  lemma RunHaltedStable(s: State, n: nat, k: nat)
    requires Dispatch.Run(s, n).Success? && !Dispatch.Run(s, n).value.running
    ensures Dispatch.Run(s, n + k) == Dispatch.Run(s, n)
  {
    IterateHaltedStable(Dispatch.Step, s, n, k);
  }

  /** m + n iterations of a loop are m iterations, then n more from where those left off. */
  lemma {:induction false} IterateSplit(next: State -> Result<State, Error>, s: State, m: nat, n: nat)
    ensures Dispatch.Iterate(next, s, m + n) ==
      match Dispatch.Iterate(next, s, m)
      case Success(t) => Dispatch.Iterate(next, t, n)
      case Failure(e) => Failure(e)
    decreases m
  {
    if s.running && m > 0 && next(s).Success? {
      assert Dispatch.Iterate(next, s, m + n) == Dispatch.Iterate(next, next(s).value, (m - 1) + n);
      IterateSplit(next, next(s).value, m - 1, n);
    }
  }

  /** Running for m + n iterations is running for m, then for n more from where that left off. */
  lemma RunSplit(s: State, m: nat, n: nat)
    ensures Dispatch.Run(s, m + n) ==
      match Dispatch.Run(s, m)
      case Success(t) => Dispatch.Run(t, n)
      case Failure(e) => Failure(e)
  {
    IterateSplit(Dispatch.Step, s, m, n);
  }

  /** Step runs the handler registered under the byte at the program counter, with the two
      following bytes as operands. */
  lemma StepDispatches(s: State, op: Dispatch.Opcode)
    requires Dispatch.CanFetch(s) && Dispatch.Fetched(s, 0) == Dispatch.Byte(op)
    ensures Dispatch.Step(s) == Dispatch.Execute(op, s, Dispatch.Fetched(s, 1), Dispatch.Fetched(s, 2))
  {
  }

  /** A running state whose step succeeds takes that step first. */
  lemma IterateOnce(next: State -> Result<State, Error>, s: State, t: State, n: nat)
    requires s.running && n > 0 && next(s) == Success(t)
    ensures Dispatch.Iterate(next, s, n) == Dispatch.Iterate(next, t, n - 1)
  {
  }

  /** `LDI R0,8; LDI R1,9; MUL R0,R1; PRN R0; HLT` as bytes. */
  function MultiplyProgram(): seq<int> {
    [Dispatch.LDI, 0, 8, Dispatch.LDI, 1, 9, Dispatch.MUL, 0, 1, Dispatch.PRN, 0, Dispatch.HLT]
  }

  /** The last two instructions, `PRN R0; HLT`, print register 0 and stop on the HLT. */
  lemma PrnHltPrints(s: State)
    requires s.running && s.pc == 9
    requires s.ram[9] == Dispatch.PRN && s.ram[10] == 0 && s.ram[11] == Dispatch.HLT
    ensures Dispatch.Iterate(Dispatch.Step, s, 2).Success?
    ensures Dispatch.Iterate(Dispatch.Step, s, 2).value.output == s.output + [s.reg[0]]
    ensures !Dispatch.Iterate(Dispatch.Step, s, 2).value.running
    ensures Dispatch.Iterate(Dispatch.Step, s, 2).value.pc == 11
  {
    var s1 := HandlePrn(s, 0, 0).value;
    assert Dispatch.Step(s) == Success(s1) by { StepDispatches(s, Dispatch.Prn); }
    var s2 := HandleHlt(s1, 0, 0).value;
    assert Dispatch.Step(s1) == Success(s2) by { StepDispatches(s1, Dispatch.Hlt); }
    IterateOnce(Dispatch.Step, s1, s2, 1);
    IterateOnce(Dispatch.Step, s, s1, 2);
  }

  /** From the MUL on, the program prints the product of registers 0 and 1 and halts. */
  lemma MulPrnHltPrints(s: State)
    requires s.running && s.pc == 6
    requires s.ram[6] == Dispatch.MUL && s.ram[7] == 0 && s.ram[8] == 1
    requires s.ram[9] == Dispatch.PRN && s.ram[10] == 0 && s.ram[11] == Dispatch.HLT
    ensures Dispatch.Iterate(Dispatch.Step, s, 3).Success?
    ensures Dispatch.Iterate(Dispatch.Step, s, 3).value.output == s.output + [s.reg[0] * s.reg[1]]
    ensures !Dispatch.Iterate(Dispatch.Step, s, 3).value.running
    ensures Dispatch.Iterate(Dispatch.Step, s, 3).value.pc == 11
  {
    var s1 := HandleMul(s, 0, 1).value;
    assert Dispatch.Step(s) == Success(s1) by { StepDispatches(s, Dispatch.Mul); }
    assert s1.ram == s.ram && s1.pc == 9 && s1.running;
    PrnHltPrints(s1);
    IterateOnce(Dispatch.Step, s, s1, 3);
  }

  /** The whole program, stated cell by cell: the two LDIs load 8 and 9, and the rest
      prints their product. */
  lemma LdiLdiMulPrnHltPrints(s: State)
    requires s.running && s.pc == 0
    requires s.ram[0] == Dispatch.LDI && s.ram[1] == 0 && s.ram[2] == 8
    requires s.ram[3] == Dispatch.LDI && s.ram[4] == 1 && s.ram[5] == 9
    requires s.ram[6] == Dispatch.MUL && s.ram[7] == 0 && s.ram[8] == 1
    requires s.ram[9] == Dispatch.PRN && s.ram[10] == 0 && s.ram[11] == Dispatch.HLT
    ensures Dispatch.Iterate(Dispatch.Step, s, 5).Success?
    ensures Dispatch.Iterate(Dispatch.Step, s, 5).value.output == s.output + [72]
    ensures !Dispatch.Iterate(Dispatch.Step, s, 5).value.running
    ensures Dispatch.Iterate(Dispatch.Step, s, 5).value.pc == 11
  {
    var s1 := HandleLdi(s, 0, 8).value;
    assert Dispatch.Step(s) == Success(s1) by { StepDispatches(s, Dispatch.Ldi); }
    var s2 := HandleLdi(s1, 1, 9).value;
    assert Dispatch.Step(s1) == Success(s2) by { StepDispatches(s1, Dispatch.Ldi); }
    assert s2.ram == s.ram && s2.pc == 6 && s2.running;
    assert s2.reg[0] == 8 && s2.reg[1] == 9;
    MulPrnHltPrints(s2);
    IterateOnce(Dispatch.Step, s1, s2, 4);
    IterateOnce(Dispatch.Step, s, s1, 5);
  }

  /** The program `LDI R0,8; LDI R1,9; MUL R0,R1; PRN R0; HLT` prints 72 and halts after
      five instructions, with the program counter left on the HLT. */
  lemma MultiplyProgramPrints72(s: State)
    requires s.running && s.pc == 0
    requires s.ram[..12] == MultiplyProgram()
    ensures Dispatch.Run(s, 5).Success?
    ensures Dispatch.Run(s, 5).value.output == s.output + [72]
    ensures !Dispatch.Run(s, 5).value.running && Dispatch.Run(s, 5).value.pc == 11
  {
    var prog := s.ram[..12];
    assert s.ram[0] == prog[0] && s.ram[1] == prog[1] && s.ram[2] == prog[2];
    assert s.ram[3] == prog[3] && s.ram[4] == prog[4] && s.ram[5] == prog[5];
    assert s.ram[6] == prog[6] && s.ram[7] == prog[7] && s.ram[8] == prog[8];
    assert s.ram[9] == prog[9] && s.ram[10] == prog[10] && s.ram[11] == prog[11];
    LdiLdiMulPrnHltPrints(s);
  }

  /** The same program loaded into a fresh CPU prints exactly 72 and halts. */
  lemma LoadedMultiplyProgramPrints72()
    ensures Load(Init(), MultiplyProgram()).Success?
    ensures Dispatch.Run(Load(Init(), MultiplyProgram()).value, 5).Success?
    ensures Dispatch.Run(Load(Init(), MultiplyProgram()).value, 5).value.output == [72]
    ensures !Dispatch.Run(Load(Init(), MultiplyProgram()).value, 5).value.running
  {
    var s := Load(Init(), MultiplyProgram()).value;
    assert s.ram[..12] == MultiplyProgram();
    MultiplyProgramPrints72(s);
  }
}

=== FILE: wrappers.dfy ===
/** Failure-compatible wrappers used throughout the model: an optional value and a
    value-or-error result that works with Dafny's `:-` operator. */
module Wrappers {

  datatype Option<+T> = None | Some(value: T)

  /** Either the value an operation produced or the error (Python exception) it raised. */
  datatype Result<+T, +E> = Success(value: T) | Failure(error: E) {

    predicate IsFailure() {
      Failure?
    }

    function PropagateFailure<U>(): Result<U, E>
      requires Failure?
    {
      Failure(error)
    }

    function Extract(): T
      requires Success?
    {
      value
    }
  }
}
